=== FILE: README.md ===
# bitcoder data model and CSV reader, in Dafny

This project models the data-ingestion core of bitcoder, a tool that reads a
CSV table into columns ("variables") for later one-hot encoding. Two parts of
it are modelled:

- **`Value`, `Range`, `Variable`** (`src/models/variable.rs`). A `Value` is
  text, a number or missing. Values have a hand-written partial order. The
  empty string becomes missing. Numeric coercion strips spaces, tabs and `%`,
  turns `,` into `.` and parses; text that does not parse stays text. A
  `Variable` appends values while keeping a running lower/upper `Range` (the
  least and greatest present value). It
  has a backup so it can switch between its numeric and text readings
  (`as_numbers` / `as_strings`).
- **The CSV reader** (`src/models/decoder.rs`). `split` cuts a row with the
  pattern `"[^"]*"|[^,]*` and strips enclosing quotes. `load` turns the header
  into columns. It then appends each data row, skips rows whose last field is
  empty, stops with an error on a row of the wrong width, and counts rows.

Modules:

- `Wrappers` (`wrappers.dfy`): `Option`, `Result`, `Outcome`.
- `Values` (`values.dfy`): the value type and its order, plus construction,
  coercion and display.
- `Variables` (`variables.dfy`): columns, `add_value`, and the
  backup/restore pair.
- `Decoding` (`decoding.dfy`): `split` and `load`.

Everything is an immutable datatype with pure functions. Mutation in the
source becomes a functional record update.

Naming: the source's `Value::String` / `Value::Number` / `Value::None` are
`Text` / `Number` / `Missing` here. `Option::None` is `None`. The `f32`
payload of a number is a `real`: NaN is not modelled, so numbers are totally
ordered. `str::parse::<f32>` is the parameter `parse: string -> Option<real>`.

How the regular-expression scan is modelled: `Decoding.Matches` reproduces
the matches that the Rust `regex` crate's `find_iter` reports.

- Each search finds a match exactly where it starts, because `[^,]*` can
  match the empty string.
- A search that starts at a quote takes the quoted alternative when another
  quote follows later in the row.
- After an empty match, the search moves on by one character.
- An empty match that begins exactly where the previous match ended is not
  reported.
- The pattern has no look-behind, so the scan works on the rest of the row.

Behaviours of the code that a reader might not expect, all modelled as the
code has them:

- A failed numeric parse leaves the value as text. It does not become
  missing.
- `as_strings` restores the values but neither clears the backup nor
  restores the range.
- After a width mismatch, the columns keep the values appended from earlier
  rows.
- A blank data line is counted in `rows`.
- `load` stops reading at the first row of the wrong width, so later lines
  are never split.

## Model

| member | source | states |
|---|---|---|
| `Values.New` | src/models/variable.rs:69-75 | The empty string is missing. Any other string becomes text with exactly that string. |
| `Values.PartialCmp` | src/models/variable.rs:43-64 | The corrected order. It has no answer exactly for text against number (either way round). It answers Equal exactly for equal values. Missing is Less than any present value, and any present value is Greater than missing. Two numbers compare as `NumCmp` orders them. |
| `Values.PartialCmpAsWritten` | src/models/variable.rs:43-64 | The order as written. A present value compared with missing answers Equal. In every other case it agrees with the corrected order. |
| `Values.AsWrittenIsNotAntisymmetric` | src/models/variable.rs:49-50 | Under the order as written, some two different values compare Equal one way round and Less the other way. |
| `Values.PartialCmpReverse` | src/models/variable.rs:43-64 | Swapping the operands reverses the answer, "no answer" included. The order is antisymmetric, including the missing cases. |
| `Values.PartialCmpSameKind` | src/models/variable.rs:45-62 | Two texts, two numbers or two missing values always compare with an answer. |
| `Values.PartialCmpTransitive` | src/models/variable.rs:43-64 | Less is transitive. |
| `Values.TextsCompare` | src/models/variable.rs:47 | Two texts compare as their strings do. |
| `Values.NumCmp` | src/models/variable.rs:56 | Two numbers compare Less / Greater exactly when `<` / `>` holds. |
| `Values.LexCmp` | src/models/variable.rs:47 | The empty string equals only itself. Two non-empty strings whose first characters differ are ordered by those characters. |
| `Values.LexCmpPrefix` | src/models/variable.rs:47 | A proper prefix sorts before the longer string, and the longer string after it. |
| `Values.LexCmpEqualIff` | src/models/variable.rs:47 | Strings compare Equal exactly when they are identical. |
| `Values.LexCmpReverse` | src/models/variable.rs:47 | `cmp(b, a)` is the reverse of `cmp(a, b)`. |
| `Values.LexCmpTransitive` | src/models/variable.rs:47 | The string order is transitive. |
| `Values.LexCmpLessIff` | src/models/variable.rs:47 | `a` sorts before `b` exactly when `a` is a proper prefix of `b` or has the smaller character at the first difference. |
| `Values.Sanitize` | src/models/variable.rs:79 | The text handed to the parser has no space, tab, `%` or `,`. Its length is the input's length minus the dropped characters. |
| `Values.SanitizeChar` | src/models/variable.rs:79 | One character at a time: a space, tab or `%` vanishes, a `,` becomes `.`, and any other character is kept. |
| `Values.SanitizeAppend` | src/models/variable.rs:79 | Sanitizing distributes over concatenation, so with `SanitizeChar` it is fixed on every string. |
| `Values.SanitizeClean` | src/models/variable.rs:79 | Text without those four characters passes unchanged. |
| `Values.SanitizeIdempotent` | src/models/variable.rs:79 | Sanitizing twice equals sanitizing once. |
| `Values.AsNumber` | src/models/variable.rs:77-84 | A value is missing after coercion exactly when it was missing before. Numbers and missing values are untouched. Text whose sanitized form parses becomes that number. Text that does not parse is left unchanged. |
| `Values.AsNumberIdempotent` | src/models/variable.rs:77-84 | Coercing twice equals coercing once. |
| `Values.Decimals` | src/models/variable.rs:29-34 | A number is shown with 3 decimals when its magnitude is from 0.001 up to 0.1, 2 up to 1, 1 up to 100, and with none below 0.001 or from 100 up. |
| `Values.DecimalsMonotone` | src/models/variable.rs:29-34 | From 0.001 up, a larger magnitude never gets more decimals, and the sign does not change the count. |
| `Values.Display` | src/models/variable.rs:22-39 | A missing value shows `(missing)`. Text is its string in curly quotes. A number is written with the decimals `Decimals` picks for it. |
| `Values.DisplayInjective` | src/models/variable.rs:26-27 | Text and missing values are distinguished by how they display. |
| `Variables.NewVariable` | src/models/variable.rs:128-136 | A new column keeps the given name and has no values, no backup and both bounds missing. |
| `Variables.UpdateRange` | src/models/variable.rs:140-145 | Each bound either stays or becomes the new value. A missing bound always becomes it. A present lower bound gives way exactly to a value the order puts below it, and a present upper bound exactly to one it puts above it. |
| `Variables.AddValueWith` | src/models/variable.rs:138-146 | `add_value` under a given order: the value is appended, the range is updated, and the name and backup are kept. |
| `Variables.AddValue` | src/models/variable.rs:138-146 | `add_value` as written. Exactly `New(s)` is appended at the end, and earlier values are kept. The name and backup are unchanged. A missing value leaves the range alone. |
| `Variables.AddValueIgnoresMissing` | src/models/variable.rs:138-146 | As written, `add_value` equals the corrected order with missing values kept out of the range. |
| `Variables.CorrectedOrderResetsLower` | src/models/variable.rs:140-142 | With the corrected order alone, a missing value would reset the lower bound to missing. As written, a present lower bound is kept. |
| `Variables.OrdersAgreeOnUpper` | src/models/variable.rs:143-145 | The upper bound moves the same way under the corrected order and the order as written, for every string. For a present value the two give the same variable. |
| `Variables.UpperStep` | src/models/variable.rs:143-145 | One upper-bound update keeps it the greatest present value. |
| `Variables.LowerStep` | src/models/variable.rs:140-142 | One lower-bound update with a text value keeps it the least present value. |
| `Variables.AddValueKeepsUpper` | src/models/variable.rs:138-146 | `add_value` keeps the upper bound equal to the greatest present value, or missing if there is none. |
| `Variables.AddValuesUpper` | src/models/variable.rs:138-146 | After any sequence of `add_value` calls, the upper bound is the lexicographic maximum of the present values, or missing. |
| `Variables.AddValueKeepsLower` | src/models/variable.rs:138-146 | `add_value` keeps the lower bound equal to the least present value, or missing if there is none. |
| `Variables.AddValuesLower` | src/models/variable.rs:138-146 | After any sequence of `add_value` calls, the lower bound is the lexicographic minimum of the present values, or missing. |
| `Variables.NewVariableTracks` | src/models/variable.rs:128-136 | A new column has no values and both bounds missing, so its range tracks its values. |
| `Variables.AddValueTracks` | src/models/variable.rs:138-146 | `add_value` keeps both bounds tracking the values. |
| `Variables.AsNumbers` | src/models/variable.rs:157-166 | The backup is taken only when it is empty, and an existing backup is never overwritten. Every value is coerced. Missing positions stay missing. Both bounds of the range are coerced too. The name and length are kept. |
| `Variables.AsStrings` | src/models/variable.rs:168-173 | The values become the backup. The backup, name and range are kept. |
| `Variables.AsNumbersIdempotent` | src/models/variable.rs:157-166 | A second `as_numbers` changes nothing: not the values, the backup or the range. |
| `Variables.AsNumbersTimesBackup` | src/models/variable.rs:158-160 | After one or more `as_numbers` calls, the backup holds the values from before the first call. |
| `Variables.AsNumbersThenAsStrings` | src/models/variable.rs:157-173 | Round trip: any number (at least one) of `as_numbers` calls and then `as_strings` restores exactly the earlier values. This needs the backup to be empty or equal to the values at the start. |
| `Decoding.IndexOf` | src/models/decoder.rs:14 | The position of the first occurrence of a character, or the length when there is none: no earlier position holds it. |
| `Decoding.MatchLen` | src/models/decoder.rs:14 | A match is empty exactly at a comma or at the end of the row. At a quote that another quote follows, the match is the quoted span up to the nearest closing quote, whatever comes after it. Anywhere else, including at a quote that is never closed, the match runs to the first comma or the end of the row. |
| `Decoding.Matches` | src/models/decoder.rs:61-62 | Scanning a row from a fresh start reports at least one match. |
| `Decoding.MatchesStep` | src/models/decoder.rs:61-62 | A non-empty match at the start of a fresh scan is reported whole, and the scan goes on right after it. |
| `Decoding.QuotedThenText` | src/models/decoder.rs:14 | A quoted span directly followed by text other than a comma is reported alone, and the text's own match starts right where the span ended. No empty field is reported between them. |
| `Decoding.MatchesAfterComma` | src/models/decoder.rs:14 | Right after a match, a comma yields no empty match of its own, and the scan starts afresh after it. |
| `Decoding.LoneQuote` | src/models/decoder.rs:63-69 | The row holding only a quote has the lone quote as its match, so it cannot be split. |
| `Decoding.Unquote` | src/models/decoder.rs:63-69 | A match that opens and closes with a quote loses exactly those two quotes. Any other match is kept whole. |
| `Decoding.Fields` | src/models/decoder.rs:59-71 | A row has one field per reported match, so at least one. |
| `Decoding.Split` | src/models/decoder.rs:55-72 | `split` fails with "Nothing to split." exactly on the empty row. Otherwise it returns at least one field. |
| `Decoding.CellThenComma` | src/models/decoder.rs:14 | A bare or quoted field followed by a comma is one match, and scanning resumes after the comma. |
| `Decoding.PlainThenComma` | src/models/decoder.rs:14 | A bare field followed by a comma is one match ending at the comma, and scanning resumes after the comma. |
| `Decoding.QuotedThenComma` | src/models/decoder.rs:14 | A quoted field followed by a comma is one match ending at the closing quote, and scanning resumes after the comma. |
| `Decoding.CellAlone` | src/models/decoder.rs:14 | A bare or quoted field alone is one match. |
| `Decoding.MatchesOfRenderRow` | src/models/decoder.rs:14 | A row written from valid fields gives one match per field, in order. |
| `Decoding.SplitRenderRow` | src/models/decoder.rs:55-71 | Round trip: splitting a row written from valid fields gives back their texts. Quoted fields come back without their quotes and may hold commas. |
| `Decoding.SplitWithoutQuotes` | src/models/decoder.rs:55-71 | A row without quotes splits into its comma-separated pieces in order, including empty leading, inner and trailing pieces. There is one field more than there are commas. |
| `Decoding.AllSplittableReadable` | src/models/decoder.rs:34-42 | Lines that can all be split can all be read by the loop, whatever the number of columns. |
| `Decoding.MismatchStopsReading` | src/models/decoder.rs:40-42 | A line after the first width mismatch is never read. A file with header `a,b`, the row `x` and then a lone quote is accepted as input and loads with the width error. |
| `Decoding.Header` | src/models/decoder.rs:25-30 | One new column per header field, named in header order. An empty header row gives no columns. |
| `Decoding.AddRow` | src/models/decoder.rs:43-45 | Field i is appended to column i, and only to it. |
| `Decoding.Classify` | src/models/decoder.rs:35-42 | An accepted line has exactly as many fields as there are columns. |
| `Decoding.Clean` | src/models/decoder.rs:34-42 | The lines before the first mismatch, and that line itself, can be split. None of the earlier lines is a mismatch. |
| `Decoding.CleanCons` | src/models/decoder.rs:34-42 | A first line that can be split and is no mismatch extends the clean prefix of the remaining lines by one. |
| `Decoding.LoadRows` | src/models/decoder.rs:34-48 | The loop never adds, removes or renames a column, never lowers the counter, and fails only with the width-mismatch error. |
| `Decoding.Load` | src/models/decoder.rs:20-53 | If the file cannot be opened, or has no first line, the result is an error with no columns and a zero counter. Otherwise there is one column per header field, named in order, and the only possible error is the width mismatch. |
| `Decoding.LoadRowsStep` | src/models/decoder.rs:34-48 | One turn of the loop. A mismatch stops with the error. An accepted line is appended and counted. A skipped line is neither. A blank line is only counted. |
| `Decoding.LoadRowsSpec` | src/models/decoder.rs:34-48 | Only the lines before the first mismatch are processed. Each column receives its field of every accepted line among them, so all columns grow together and nothing is rolled back. The counter grows by the lines there that were not skipped. The result is an error exactly when a mismatch exists. |
| `Decoding.LoadRowsPostStep` | src/models/decoder.rs:34-48 | A line that is not a mismatch passes its contribution on to the rest of the loop. |
| `Decoding.AcceptedStep` | src/models/decoder.rs:43-47 | For an accepted line, every column gains that line's field in front of its share of the later accepted lines. |
| `Decoding.AcceptedColumn` | src/models/decoder.rs:43-45 | Appending one accepted row adds that row's field to the front of each column's share of the later rows. |
| `Decoding.PrefixStep` | src/models/decoder.rs:34-42 | A first line that is not a mismatch contributes to the processed prefix, its accepted rows and its count exactly once. |
| `Decoding.LoadSpec` | src/models/decoder.rs:20-53 | After `load`, each column holds exactly its field of every accepted data line before the first mismatch. `rows` counts those lines that were not skipped. The result is Ok exactly when no line mismatches. |
| `Decoding.SkippedRow` | src/models/decoder.rs:36-39 | A row whose last field is empty is skipped whatever its width. It adds no values and is not counted. |
| `Decoding.BlankRow` | src/models/decoder.rs:34-35 | An empty line adds no values but is counted. |
| `Decoding.LoadRowsTracks` | src/models/decoder.rs:43-45 | Appending rows keeps every column's range tracking its values. |
| `Decoding.LoadTracks` | src/models/decoder.rs:20-48 | After any load, successful or not, every column's upper bound is its greatest present value and its lower bound its least present value, or missing when the column has no present value. |

## Left out

- `Value::fmt` for numbers (src/models/variable.rs:35): writing a float with a fixed number of decimals is floating-point formatting, so it is the parameter `formatFixed`. The choice of the number of decimals is modelled (`Values.Decimals`).
- `Values.Decimals`: the bounds 0.001, 0.1, 1 and 100 are compared as exact decimals. In the source they are `f32` values, so a magnitude within one `f32` step of 0.001 or 0.1 may fall on the other side.
- `f32` arithmetic: numbers are `real`, and NaN, infinities, rounding and `-0.0` are not modelled. `parse::<f32>` is a parameter.
- `Display for Range` (src/models/variable.rs:109-114): the display of the two bounds joined by " to ", with no further logic.
- The `Mapping` enum and the `mapping` field of `Variable` (src/models/variable.rs:95-100, 123): they are never read or changed in this file, so `Variable` has no such field here.
- The accessors `name()` and `range()` (src/models/variable.rs:149-155): they only read fields.
- The regular-expression engine: `split` is modelled directly as the scan the engine performs for this one pattern.
- `Decoding.Split`: a lone `"` reported as a match makes the slice at src/models/decoder.rs:65-69 run backwards and panic. Such rows are excluded by the requirement `Splittable`. `Decoding.Load` needs it only of the header and of the data lines up to and including the first width mismatch, which are the lines the loop splits.
- File opening and reading in `load`: the input is the sequence of lines read before end of file or the first read error, plus a flag that says whether the file opened. A read error ends the loop exactly like end of file.
- `src/main.rs` (user interface), `src/models/encoder.rs` (placeholder file output) and `src/models/parser.rs` (a parser that always succeeds): they are outside the modelled core.

## Findings

| source | as written | input that shows it | evidently intended | confidence | as-written member | corrected member |
|---|---|---|---|---|---|---|
| src/models/variable.rs:49-58 | In the String and Number arms, the guard `*other == Value::None` is always true once `other` has matched `Value::None`. So a present value against a missing one answers `Some(Equal)`, and the `Some(Greater)` arms on lines 50 and 58 can never run. | `partial_cmp(String{"a"}, None)` is `Some(Equal)`, while `partial_cmp(None, String{"a"})` is `Some(Less)`, and the two values differ. | `Some(Greater)`: missing sits below every present value, and the order is antisymmetric. | not executed; high | `Values.AsWrittenIsNotAntisymmetric` | `Values.PartialCmpReverse` |

The faulty guard changes only how the lower bound of `add_value` reacts to
a missing value. Its comparisons `lower > value` and `upper < value` give a
wrong answer only when the new value is missing, and that wrong answer is
Equal. As written, a present lower bound is therefore kept; with the guard
corrected, `lower > value` would hold and the lower bound would be reset to
missing (`Variables.CorrectedOrderResetsLower`). The upper bound is the same
under both orders, since `upper < value` is false against a missing value
either way (`Variables.OrdersAgreeOnUpper`). As written, `add_value` thus keeps the least and greatest
present value, which is what a range is for
(`Variables.AddValueIgnoresMissing`, `Variables.AddValuesLower`,
`Variables.AddValuesUpper`), and the model keeps `add_value` exactly as
written.

=== FILE: decoding.dfy ===
/** The CSV reader (src/models/decoder.rs): a quote-aware field splitter
    driven by the pattern `"[^"]*"|[^,]*`, and the line-by-line load that
    turns a header and data rows into columns. */
module Decoding {
  import opened Wrappers
  import opened Values
  import opened Variables

  /* ---------------------------------------------------------------------- */
  /* Splitting one row                                                      */
  /* ---------------------------------------------------------------------- */

  /** Position of the first `c` in `s`, or `|s|` when there is none. */
  function IndexOf(s: string, c: char): (k: nat)
    ensures k <= |s|
    ensures k < |s| ==> s[k] == c
    ensures forall i :: 0 <= i < k ==> s[i] != c
  {
    if s == [] then 0 else if s[0] == c then 0 else 1 + IndexOf(s[1..], c)
  }

  /** Length of the leftmost-first match of `"[^"]*"|[^,]*` at the start of
      `s`: a quoted span when `s` opens with a quote that is closed later,
      otherwise everything up to the first comma. The pattern looks only
      forward, so the match at a position depends only on the rest of the row. */
  function MatchLen(s: string): (e: nat)
    ensures e <= |s|
    ensures e == 0 <==> s == [] || s[0] == ','
    ensures s != [] && s[0] == '"' && '"' in s[1..] ==>
      2 <= e && s[e - 1] == '"' && '"' !in s[1..e - 1]
    ensures !(s != [] && s[0] == '"' && '"' in s[1..]) ==>
      ',' !in s[..e] && (e == |s| || s[e] == ',')
  {
    if s != [] && s[0] == '"' && IndexOf(s[1..], '"') < |s| - 1 then IndexOf(s[1..], '"') + 2
    else IndexOf(s, ',')
  }

  /** The matches that `find_iter` reports while scanning `s`, as text. Every
      search finds a match where it starts, because `[^,]*` matches the empty
      string. An empty match is followed by a search one character further
      on; an empty match found exactly where the previous match ended is not
      reported, and `after` records that the previous match ended where `s`
      starts. */
  function Matches(s: string, after: bool): (ms: seq<string>)
    ensures !after ==> |ms| >= 1
    decreases |s|
  {
    var e := MatchLen(s);
    if e == 0 then
      (if after then [] else [""]) + (if s == [] then [] else Matches(s[1..], false))
    else [s[..e]] + Matches(s[e..], true)
  }

  /** A quoted span directly followed by text is reported on its own, and the
      text after it starts a match of its own at the position where the span
      ended; no empty match sits between the two. */
  lemma QuotedThenText(t: string, u: string)
    requires '"' !in t && u != [] && u[0] != ','
    ensures Matches("\"" + t + "\"" + u, false) == ["\"" + t + "\""] + Matches(u, false)
  {
    var q := "\"" + t + "\"";
    var s := q + u;
    assert s[1..] == t + "\"" + u;
    IndexOfAt(s[1..], '"', |t|);
    assert MatchLen(s) == |t| + 2;
    assert s[..|t| + 2] == q;
    assert s[|t| + 2..] == u;
  }

  /** Rows whose matches can all be sliced: a match that is a lone quote
      makes the slice at src/models/decoder.rs:65-69 run backwards and panic. */
  predicate Splittable(row: string) {
    var ms := Matches(row, false);
    forall i :: 0 <= i < |ms| ==> ms[i] != "\""
  }

  /** A match without its enclosing quotes, when it opens and closes with one
      (src/models/decoder.rs:63-69): such a match loses exactly those two
      quotes, and any other match is kept whole. */
  function Unquote(m: string): (f: string)
    requires m != "\""
    ensures m != [] && m[0] == '"' && m[|m| - 1] == '"' ==> m == "\"" + f + "\""
    ensures !(m != [] && m[0] == '"' && m[|m| - 1] == '"') ==> f == m
  {
    if m != [] && m[0] == '"' && m[|m| - 1] == '"' then m[1..|m| - 1] else m
  }

  /** The fields of a row: every match, unquoted, in order. */
  function Fields(row: string): (fs: seq<string>)
    requires Splittable(row)
    ensures |fs| == |Matches(row, false)| >= 1
  {
    var ms := Matches(row, false);
    seq(|ms|, i requires 0 <= i < |ms| => Unquote(ms[i]))
  }

  /** Error message of `split` on an empty row. */
  const NothingToSplit: string := "Nothing to split."

  /** `Decoder::split` (src/models/decoder.rs:55-72): an empty row is an
      error, any other row gives at least one field. */
  function Split(row: string): (r: Result<seq<string>, string>)
    requires Splittable(row)
    ensures r.Err? <==> row == []
    ensures r.Err? ==> r.error == NothingToSplit
    ensures r.Ok? ==> |r.value| >= 1
  {
    if row == [] then Err(NothingToSplit) else Ok(Fields(row))
  }

  /* ---------------------------------------------------------------------- */
  /* Reference: fields written out and read back                            */
  /* ---------------------------------------------------------------------- */

  /** A field as it is written in a row: bare text, or text in quotes. */
  datatype Cell = Plain(text: string) | Quoted(text: string)

  /** A cell the splitter reads back as written: bare text holds no comma and
      does not open with a quote; quoted text holds no quote (it may hold commas). */
  predicate ValidCell(c: Cell) {
    match c
    case Plain(t) => ',' !in t && (t == [] || t[0] != '"')
    case Quoted(t) => '"' !in t
  }

  /** The characters of a cell in a row. */
  function Render(c: Cell): string {
    match c
    case Plain(t) => t
    case Quoted(t) => "\"" + t + "\""
  }

  /** Pieces joined with a comma between neighbours. */
  function Join(ps: seq<string>): string
    requires |ps| >= 1
  {
    if |ps| == 1 then ps[0] else ps[0] + "," + Join(ps[1..])
  }

  /** The written form of each cell, in order. */
  function Renders(cells: seq<Cell>): (ps: seq<string>)
    ensures |ps| == |cells|
    ensures forall i :: 0 <= i < |cells| ==> ps[i] == Render(cells[i])
  {
    seq(|cells|, i requires 0 <= i < |cells| => Render(cells[i]))
  }

  /** The row that writes out `cells` in order. */
  function RenderRow(cells: seq<Cell>): string
    requires |cells| >= 1
  {
    Join(Renders(cells))
  }

  /** The texts the cells stand for. */
  function Texts(cells: seq<Cell>): seq<string> {
    seq(|cells|, i requires 0 <= i < |cells| => cells[i].text)
  }

  /** A row cut at every comma, character by character; the plain reading of
      a row without quotes. */
  function SplitComma(s: string): (ps: seq<string>)
    ensures |ps| >= 1
  {
    if s == [] then [""]
    else
      var rest := SplitComma(s[1..]);
      if s[0] == ',' then [""] + rest else [[s[0]] + rest[0]] + rest[1..]
  }

  /** Number of occurrences of `c` in `s`. */
  function Count(s: string, c: char): nat {
    if s == [] then 0 else (if s[0] == c then 1 else 0) + Count(s[1..], c)
  }

  /** Cutting at commas and joining with commas gives the row back, no piece
      holds a comma or a character the row does not hold, and there is one
      piece more than there are commas. */
  lemma {:induction false} SplitCommaProperties(s: string)
    ensures Join(SplitComma(s)) == s
    ensures |SplitComma(s)| == Count(s, ',') + 1
    ensures forall k :: 0 <= k < |SplitComma(s)| ==> ',' !in SplitComma(s)[k]
    ensures forall k, c :: 0 <= k < |SplitComma(s)| && c in SplitComma(s)[k] ==> c in s
    decreases |s|
  {
    if s != [] {
      var rest := SplitComma(s[1..]);
      SplitCommaProperties(s[1..]);
      assert s == [s[0]] + s[1..];
      if s[0] == ',' {
        SplitAtComma(s[1..], rest);
      } else {
        SplitAtOther(s[0], s[1..], rest);
      }
    }
  }

  /** A comma in front of a row puts an empty piece in front of its pieces. */
  lemma SplitAtComma(t: string, rest: seq<string>)
    requires |rest| >= 1 && Join(rest) == t
    requires forall k :: 0 <= k < |rest| ==> ',' !in rest[k]
    requires forall k, c :: 0 <= k < |rest| && c in rest[k] ==> c in t
    ensures Join([""] + rest) == "," + t
    ensures forall k :: 0 <= k < |[""] + rest| ==> ',' !in ([""] + rest)[k]
    ensures forall k, c :: 0 <= k < |[""] + rest| && c in ([""] + rest)[k] ==> c in "," + t
  {
    assert ([""] + rest)[1..] == rest;
  }

  /** Putting a character in front of the first piece puts it in front of
      the joined row. */
  lemma JoinAtOther(d: char, rest: seq<string>)
    requires |rest| >= 1
    ensures Join([[d] + rest[0]] + rest[1..]) == [d] + Join(rest)
  {
    var a, r := rest[0], rest[1..];
    assert rest == [a] + r;
    if r != [] {
      JoinCons([d] + a, r);
      JoinCons(a, r);
      CharInFront(d, a, Join(r));
    }
  }

  /** A character in front of a piece stays in front once a comma and the
      next pieces follow. */
  lemma CharInFront(d: char, a: string, j: string)
    ensures [d] + a + "," + j == [d] + (a + "," + j)
  {
  }

  /** Joining a piece in front of two or more pieces puts it and a comma in
      front. */
  lemma JoinCons(p: string, ps: seq<string>)
    requires |ps| >= 1
    ensures Join([p] + ps) == p + "," + Join(ps)
  {
    assert ([p] + ps)[1..] == ps;
  }


  /** Any other character in front of a row goes in front of its first
      piece. */
  lemma SplitAtOther(d: char, t: string, rest: seq<string>)
    requires d != ','
    requires |rest| >= 1 && Join(rest) == t
    requires forall k :: 0 <= k < |rest| ==> ',' !in rest[k]
    requires forall k, c :: 0 <= k < |rest| && c in rest[k] ==> c in t
    ensures Join([[d] + rest[0]] + rest[1..]) == [d] + t
    ensures forall k :: 0 <= k < |rest| ==> ',' !in ([[d] + rest[0]] + rest[1..])[k]
    ensures forall k, c :: 0 <= k < |rest| && c in ([[d] + rest[0]] + rest[1..])[k] ==> c in [d] + t
  {
    JoinAtOther(d, rest);
    var ps := [[d] + rest[0]] + rest[1..];
    forall k | 0 <= k < |rest|
      ensures ',' !in ps[k]
    {
      if k > 0 {
        assert ps[k] == rest[k];
      }
    }
    forall k, c | 0 <= k < |rest| && c in ps[k]
      ensures c in [d] + t
    {
      if k == 0 && c != d {
        assert c in rest[0];
      } else if k > 0 {
        assert ps[k] == rest[k];
      }
    }
  }

  /** The first `c` of `s` is at `k` when `s[k]` is one and no earlier character is. */
  lemma IndexOfAt(s: string, c: char, k: nat)
    requires k < |s| && s[k] == c
    requires forall i :: 0 <= i < k ==> s[i] != c
    ensures IndexOf(s, c) == k
  {
  }

  /** A non-empty match at the start of a fresh scan is reported, and the
      scan goes on right after it. */
  lemma MatchesStep(s: string, e: nat)
    requires MatchLen(s) == e && e > 0
    ensures Matches(s, false) == [s[..e]] + Matches(s[e..], true)
  {
  }

  /** Right after a match, a comma yields no match of its own, and the scan
      starts afresh after it. */
  lemma MatchesAfterComma(tail: string)
    ensures Matches("," + tail, true) == Matches(tail, false)
  {
    var s := "," + tail;
    assert MatchLen(s) == 0;
    assert s[1..] == tail;
  }

  /** A bare cell followed by a comma: the match stops at the comma. */
  lemma PlainThenComma(t: string, tail: string)
    requires ValidCell(Plain(t))
    ensures Matches(t + "," + tail, false) == [t] + Matches(tail, false)
  {
    var s := t + "," + tail;
    if t == [] {
      assert s == "," + tail;
      assert MatchLen(s) == 0;
      assert s[1..] == tail;
    } else {
      assert forall i :: 0 <= i < |t| ==> s[i] == t[i];
      IndexOfAt(s, ',', |t|);
      assert MatchLen(s) == |t|;
      MatchesStep(s, |t|);
      assert s[..|t|] == t;
      assert s[|t|..] == "," + tail;
      MatchesAfterComma(tail);
    }
  }

  /** A quoted cell followed by a comma: the match ends at the closing quote. */
  lemma QuotedThenComma(t: string, tail: string)
    requires ValidCell(Quoted(t))
    ensures Matches(Render(Quoted(t)) + "," + tail, false) == [Render(Quoted(t))] + Matches(tail, false)
  {
    var m := Render(Quoted(t));
    var s := m + "," + tail;
    var r := s[1..];
    assert r == t + "\"" + "," + tail;
    assert forall i :: 0 <= i < |t| ==> r[i] == t[i];
    IndexOfAt(r, '"', |t|);
    assert MatchLen(s) == |t| + 2;
    MatchesStep(s, |t| + 2);
    assert s[..|t| + 2] == m;
    assert s[|t| + 2..] == "," + tail;
    MatchesAfterComma(tail);
  }

  /** A valid cell followed by a comma is read as exactly that cell, and
      scanning resumes at the start of the remaining text. */
  lemma CellThenComma(c: Cell, tail: string)
    requires ValidCell(c)
    ensures Matches(Render(c) + "," + tail, false) == [Render(c)] + Matches(tail, false)
  {
    if c.Plain? {
      PlainThenComma(c.text, tail);
    } else {
      QuotedThenComma(c.text, tail);
    }
  }

  /** A valid cell alone is read as exactly that cell. */
  lemma CellAlone(c: Cell)
    requires ValidCell(c)
    ensures Matches(Render(c), false) == [Render(c)]
  {
    var m := Render(c);
    if c.Plain? {
      if m != [] {
        assert IndexOf(m, ',') == |m|;
        assert m[..|m|] == m;
        assert m[|m|..] == [];
      }
    } else {
      var t := c.text;
      assert m[1..] == t + "\"";
      assert IndexOf(m[1..], '"') == |t| by {
        assert m[1..][|t|] == '"';
        assert forall i :: 0 <= i < |t| ==> m[1..][i] == t[i];
      }
      assert m[..|t| + 2] == m;
      assert m[|t| + 2..] == [];
    }
  }

  /** The written forms of two or more cells are the first cell's followed
      by those of the rest. */
  lemma RendersCons(cells: seq<Cell>)
    requires |cells| >= 2
    ensures Renders(cells) == [Render(cells[0])] + Renders(cells[1..])
  {
    assert Renders(cells)[1..] == Renders(cells[1..]);
  }

  /** A row of two or more cells is the first cell, a comma, and the row of the rest. */
  lemma RenderRowCons(cells: seq<Cell>)
    requires |cells| >= 2
    ensures RenderRow(cells) == Render(cells[0]) + "," + RenderRow(cells[1..])
  {
    RendersCons(cells);
    JoinCons(Render(cells[0]), Renders(cells[1..]));
  }

  /** Scanning a row written from valid cells reports one match per cell. */
  lemma {:induction false} MatchesOfRenderRow(cells: seq<Cell>)
    requires |cells| >= 1
    requires forall i :: 0 <= i < |cells| ==> ValidCell(cells[i])
    ensures Matches(RenderRow(cells), false) == Renders(cells)
    decreases |cells|
  {
    if |cells| == 1 {
      CellAlone(cells[0]);
      assert Renders(cells) == [Render(cells[0])];
    } else {
      MatchesOfRenderRow(cells[1..]);
      RendersCons(cells);
      RenderRowCons(cells);
      CellThenComma(cells[0], RenderRow(cells[1..]));
    }
  }

  /** Round trip: writing valid cells out as a row and splitting it gives
      back their texts; quoted texts come back without their quotes and with
      any commas they hold. Only the row of one empty bare cell is empty, and
      splitting that is an error. */
  lemma SplitRenderRow(cells: seq<Cell>)
    requires |cells| >= 1
    requires forall i :: 0 <= i < |cells| ==> ValidCell(cells[i])
    ensures Splittable(RenderRow(cells))
    ensures RenderRow(cells) != [] ==> Split(RenderRow(cells)) == Ok(Texts(cells))
  {
    MatchesOfRenderRow(cells);
    var row := RenderRow(cells);
    var ms := Matches(row, false);
    forall i | 0 <= i < |ms|
      ensures ms[i] != "\"" && Unquote(ms[i]) == cells[i].text
    {
      assert ms[i] == Render(cells[i]);
      if cells[i].Quoted? {
        var t := cells[i].text;
        assert ms[i] == "\"" + t + "\"";
        assert ms[i][1..|ms[i]| - 1] == t;
      }
    }
    if row != [] {
      assert Fields(row) == Texts(cells);
    }
  }

  /** A row without quotes splits into its comma-separated pieces in order,
      empty leading, inner and trailing pieces included: one field more than
      there are commas. */
  lemma SplitWithoutQuotes(row: string)
    requires row != [] && '"' !in row
    ensures Splittable(row)
    ensures Split(row) == Ok(SplitComma(row))
    ensures |Split(row).value| == Count(row, ',') + 1
  {
    var ps := SplitComma(row);
    SplitCommaProperties(row);
    var cells := seq(|ps|, i requires 0 <= i < |ps| => Plain(ps[i]));
    forall i | 0 <= i < |cells|
      ensures ValidCell(cells[i])
    {
      if ps[i] != [] {
        assert ps[i][0] in ps[i];
      }
    }
    assert seq(|cells|, i requires 0 <= i < |cells| => Render(cells[i])) == ps;
    assert Texts(cells) == ps;
    SplitRenderRow(cells);
  }

  /* ---------------------------------------------------------------------- */
  /* Loading a file                                                         */
  /* ---------------------------------------------------------------------- */

  /** Error messages of `load`. */
  const CannotOpen: string := "File cannot be opened. Is it opened somewhere else?"
  const FileEmpty: string := "The file appears to be empty."
  const CountMismatch: string := "Number of values differ between rows in this file."

  /** What `load` leaves behind: the columns, the row counter, and its result.
      The columns and counter are visible to the caller even after an error. */
  datatype Loaded = Loaded(variables: seq<Variable>, rows: nat, status: Outcome<string>)

  /** Every line can be split without a panic. */
  predicate AllSplittable(lines: seq<string>) {
    forall i :: 0 <= i < |lines| ==> Splittable(lines[i])
  }

  /** Every data line the loop of `load` reads with `n` columns can be split
      without a panic: the lines up to and including the first mismatching
      one. The loop returns at that line, so what follows is never read. */
  predicate Readable(lines: seq<string>, n: nat)
    decreases |lines|
  {
    lines == [] || (Splittable(lines[0]) && (Classify(lines[0], n).Mismatch? || Readable(lines[1..], n)))
  }

  /** Lines that can all be split are readable with any number of columns. */
  lemma {:induction false} AllSplittableReadable(lines: seq<string>, n: nat)
    requires AllSplittable(lines)
    ensures Readable(lines, n)
    decreases |lines|
  {
    if lines != [] {
      assert Splittable(lines[0]);
      assert forall i :: 0 <= i < |lines| - 1 ==> lines[1..][i] == lines[i + 1];
      AllSplittableReadable(lines[1..], n);
    }
  }

  /** The header and every data line `load` reads can be split without a panic. */
  predicate LoadReadable(lines: seq<string>) {
    lines == [] || (Splittable(lines[0]) && Readable(lines[1..], |Header(lines[0])|))
  }

  /** One column per header field, named in header order; none when the
      header row is empty (src/models/decoder.rs:26-30). */
  function Header(row: string): (vars: seq<Variable>)
    requires Splittable(row)
    ensures row == [] ==> vars == []
    ensures row != [] ==> |vars| == |Fields(row)|
    ensures forall i :: 0 <= i < |vars| ==> vars[i] == NewVariable(Fields(row)[i])
  {
    match Split(row)
    case Ok(names) => seq(|names|, i requires 0 <= i < |names| => NewVariable(names[i]))
    case Err(_) => []
  }

  /** Field `i` appended to column `i` (src/models/decoder.rs:43-45). */
  function AddRow(vars: seq<Variable>, fields: seq<string>): (r: seq<Variable>)
    requires |fields| == |vars|
    ensures |r| == |vars|
    ensures forall i :: 0 <= i < |vars| ==> r[i] == AddValue(vars[i], fields[i])
  {
    seq(|vars|, i requires 0 <= i < |vars| => AddValue(vars[i], fields[i]))
  }

  /** The `while` loop of `load` (src/models/decoder.rs:34-48) over the lines
      after the header: an empty line only counts, a row whose last field is
      empty is skipped before its width is checked, a row of the wrong width
      stops with an error, and any other row is appended and counted. */
  function LoadRows(vars: seq<Variable>, rows: nat, lines: seq<string>): (r: Loaded)
    requires Readable(lines, |vars|)
    ensures |r.variables| == |vars|
    ensures forall i :: 0 <= i < |vars| ==> r.variables[i].name == vars[i].name
    ensures r.rows >= rows
    ensures r.status == Pass || r.status == Fail(CountMismatch)
    decreases |lines|
  {
    if lines == [] then Loaded(vars, rows, Pass)
    else
      match Split(lines[0])
      case Err(_) => LoadRows(vars, rows + 1, lines[1..])
      case Ok(fields) =>
        if fields[|fields| - 1] == "" then LoadRows(vars, rows, lines[1..])
        else if |fields| != |vars| then Loaded(vars, rows, Fail(CountMismatch))
        else LoadRows(AddRow(vars, fields), rows + 1, lines[1..])
  }

  /** `Decoder::load` (src/models/decoder.rs:20-53) on the lines the reader
      yields before the end of the file or its first read error (a read error
      ends the loop exactly as the end of the file does); `isOpen` says
      whether the file could be opened. The columns are cleared and the
      counter reset first, so the two early errors leave nothing behind. */
  function Load(isOpen: bool, lines: seq<string>): (r: Loaded)
    requires LoadReadable(lines)
    ensures !isOpen ==> r == Loaded([], 0, Fail(CannotOpen))
    ensures isOpen && lines == [] ==> r == Loaded([], 0, Fail(FileEmpty))
    ensures isOpen && lines != [] ==> |r.variables| == |Header(lines[0])|
    ensures isOpen && lines != [] ==>
      forall i :: 0 <= i < |r.variables| ==> r.variables[i].name == Fields(lines[0])[i]
    ensures isOpen && lines != [] ==> r.status == Pass || r.status == Fail(CountMismatch)
  {
    if !isOpen then Loaded([], 0, Fail(CannotOpen))
    else if lines == [] then Loaded([], 0, Fail(FileEmpty))
    else LoadRows(Header(lines[0]), 0, lines[1..])
  }

  /* ---------------------------------------------------------------------- */
  /* Reference: what each data line does                                    */
  /* ---------------------------------------------------------------------- */

  /** How the load treats one data line when there are `n` columns. */
  datatype RowKind = Blank | Skipped | Mismatch | Accepted(fields: seq<string>)

  /** The classification of one data line, read off its fields alone. */
  function Classify(row: string, n: nat): (k: RowKind)
    requires Splittable(row)
    ensures k.Accepted? ==> |k.fields| == n
  {
    if row == [] then Blank
    else
      var fs := Fields(row);
      if fs[|fs| - 1] == "" then Skipped
      else if |fs| != n then Mismatch
      else Accepted(fs)
  }

  /** Number of leading lines before the first mismatch. */
  function Clean(lines: seq<string>, n: nat): (k: nat)
    requires Readable(lines, n)
    ensures k <= |lines|
    ensures AllSplittable(lines[..k])
    ensures forall i :: 0 <= i < k ==> Splittable(lines[i]) && !Classify(lines[i], n).Mismatch?
    ensures k < |lines| ==> Splittable(lines[k]) && Classify(lines[k], n).Mismatch?
    decreases |lines|
  {
    if lines == [] || Classify(lines[0], n).Mismatch? then 0
    else
      var k := Clean(lines[1..], n);
      CleanCons(lines, n, k);
      1 + k
  }

  /** The inductive step of `Clean`: a first line that can be split and is
      no mismatch extends the clean prefix of the rest by one. */
  lemma CleanCons(lines: seq<string>, n: nat, k: nat)
    requires lines != [] && Splittable(lines[0]) && !Classify(lines[0], n).Mismatch?
    requires k < |lines|
    requires AllSplittable(lines[1..][..k])
    requires forall i :: 0 <= i < k ==> Splittable(lines[1..][i]) && !Classify(lines[1..][i], n).Mismatch?
    ensures AllSplittable(lines[..k + 1])
    ensures forall i :: 0 <= i < k + 1 ==> Splittable(lines[i]) && !Classify(lines[i], n).Mismatch?
  {
    assert lines[..k + 1] == [lines[0]] + lines[1..][..k];
    forall i | 0 < i < k + 1
      ensures Splittable(lines[i]) && !Classify(lines[i], n).Mismatch?
    {
      assert lines[i] == lines[1..][i - 1];
    }
  }

  /** The fields of the accepted lines among `lines`, in order. */
  function AcceptedRows(lines: seq<string>, n: nat): (a: seq<seq<string>>)
    requires AllSplittable(lines)
    ensures forall i :: 0 <= i < |a| ==> |a[i]| == n
    decreases |lines|
  {
    if lines == [] then []
    else
      var rest := AcceptedRows(lines[1..], n);
      match Classify(lines[0], n)
      case Accepted(fs) => [fs] + rest
      case _ => rest
  }

  /** Number of lines among `lines` that are not skipped. */
  function Counted(lines: seq<string>, n: nat): nat
    requires AllSplittable(lines)
    decreases |lines|
  {
    if lines == [] then 0
    else (if Classify(lines[0], n).Skipped? then 0 else 1) + Counted(lines[1..], n)
  }

  /** Column `j` of a list of accepted rows, as values. */
  function Column(a: seq<seq<string>>, j: nat): (c: seq<Value>)
    requires forall i :: 0 <= i < |a| ==> j < |a[i]|
    ensures |c| == |a|
  {
    seq(|a|, i requires 0 <= i < |a| => New(a[i][j]))
  }

  /** The column of a list of rows starts with the field of its first row. */
  lemma ColumnCons(fs: seq<string>, a: seq<seq<string>>, j: nat)
    requires j < |fs| && forall i :: 0 <= i < |a| ==> j < |a[i]|
    ensures Column([fs] + a, j) == [New(fs[j])] + Column(a, j)
  {
    var c := Column([fs] + a, j);
    assert forall i :: 0 < i < |c| ==> c[i] == Column(a, j)[i - 1];
  }

  /** Splitting off the first line of a sequence that does not start with a
      mismatch: the clean prefix loses that line, and the accepted rows and
      the count of the prefix lose exactly its contribution. */
  lemma PrefixStep(lines: seq<string>, n: nat)
    requires Readable(lines, n) && lines != []
    requires !Classify(lines[0], n).Mismatch?
    ensures Readable(lines[1..], n)
    ensures Clean(lines, n) == Clean(lines[1..], n) + 1
    ensures AcceptedRows(lines[..Clean(lines, n)], n) ==
      (if Classify(lines[0], n).Accepted?
       then [Classify(lines[0], n).fields] + AcceptedRows(lines[1..][..Clean(lines[1..], n)], n)
       else AcceptedRows(lines[1..][..Clean(lines[1..], n)], n))
    ensures Counted(lines[..Clean(lines, n)], n) ==
      (if Classify(lines[0], n).Skipped? then 0 else 1) + Counted(lines[1..][..Clean(lines[1..], n)], n)
  {
    var k := Clean(lines, n);
    var p := lines[..k];
    assert p[0] == lines[0];
    assert p[1..] == lines[1..][..k - 1];
  }

  /** The outcome of the loop of `load` over `lines`, described line by line
      (see `LoadRowsSpec`). */
  ghost predicate LoadRowsPost(vars: seq<Variable>, rows: nat, lines: seq<string>, r: Loaded)
    requires Readable(lines, |vars|)
  {
    var k := Clean(lines, |vars|);
    var a := AcceptedRows(lines[..k], |vars|);
    && |r.variables| == |vars|
    && (r.status == Pass <==> k == |lines|)
    && r.rows == rows + Counted(lines[..k], |vars|)
    && forall j :: 0 <= j < |vars| ==> r.variables[j].values == vars[j].values + Column(a, j)
  }

  /** One turn of the loop of `load`, stated through the classification of
      the line it reads. */
  lemma LoadRowsStep(vars: seq<Variable>, rows: nat, lines: seq<string>)
    requires Readable(lines, |vars|) && lines != []
    ensures Splittable(lines[0])
    ensures !Classify(lines[0], |vars|).Mismatch? ==> Readable(lines[1..], |vars|)
    ensures var kind := Classify(lines[0], |vars|);
      LoadRows(vars, rows, lines) ==
        if kind.Mismatch? then Loaded(vars, rows, Fail(CountMismatch))
        else LoadRows(if kind.Accepted? then AddRow(vars, kind.fields) else vars,
                      if kind.Skipped? then rows else rows + 1, lines[1..])
  {
  }

  /** The loop of `load`, line by line: the lines before the first mismatch
      are processed and the rest are not; every column receives, in order,
      its field of each accepted line among them (so all columns grow by the
      same amount, and nothing is rolled back when the mismatch stops the
      load); the counter grows by every such line that is not skipped; and
      the result is an error exactly when a mismatching line exists. */
  lemma {:induction false} LoadRowsSpec(vars: seq<Variable>, rows: nat, lines: seq<string>)
    requires Readable(lines, |vars|)
    ensures LoadRowsPost(vars, rows, lines, LoadRows(vars, rows, lines))
    decreases |lines|
  {
    var n := |vars|;
    var r := LoadRows(vars, rows, lines);
    if lines == [] || Classify(lines[0], n).Mismatch? {
      if lines != [] {
        LoadRowsStep(vars, rows, lines);
        assert lines[..Clean(lines, n)] == [];
      }
      forall j | 0 <= j < n
        ensures r.variables[j].values == vars[j].values + Column([], j)
      {
        assert vars[j].values + [] == vars[j].values;
      }
    } else {
      var kind := Classify(lines[0], n);
      var vars' := if kind.Accepted? then AddRow(vars, kind.fields) else vars;
      var rows' := if kind.Skipped? then rows else rows + 1;
      LoadRowsSpec(vars', rows', lines[1..]);
      LoadRowsPostStep(vars, rows, lines);
    }
  }

  /** The induction step of `LoadRowsSpec`: a line that is not a mismatch
      hands its contribution on to the rest of the loop. */
  lemma LoadRowsPostStep(vars: seq<Variable>, rows: nat, lines: seq<string>)
    requires Readable(lines, |vars|) && lines != [] && !Classify(lines[0], |vars|).Mismatch?
    requires Readable(lines[1..], |vars|)
    requires var kind := Classify(lines[0], |vars|);
      LoadRowsPost(if kind.Accepted? then AddRow(vars, kind.fields) else vars,
                   if kind.Skipped? then rows else rows + 1, lines[1..],
                   LoadRows(if kind.Accepted? then AddRow(vars, kind.fields) else vars,
                            if kind.Skipped? then rows else rows + 1, lines[1..]))
    ensures LoadRowsPost(vars, rows, lines, LoadRows(vars, rows, lines))
  {
    LoadRowsStep(vars, rows, lines);
    PrefixStep(lines, |vars|);
    var kind := Classify(lines[0], |vars|);
    if kind.Accepted? {
      AcceptedStep(vars, rows, lines);
    }
  }

  /** `LoadRowsPostStep` for an accepted line: every column gains the line's
      field in front of its share of the later lines. */
  lemma AcceptedStep(vars: seq<Variable>, rows: nat, lines: seq<string>)
    requires Readable(lines, |vars|) && lines != [] && Classify(lines[0], |vars|).Accepted?
    requires Readable(lines[1..], |vars|)
    requires LoadRowsPost(AddRow(vars, Classify(lines[0], |vars|).fields), rows + 1, lines[1..],
                          LoadRows(AddRow(vars, Classify(lines[0], |vars|).fields), rows + 1, lines[1..]))
    requires LoadRows(vars, rows, lines) ==
             LoadRows(AddRow(vars, Classify(lines[0], |vars|).fields), rows + 1, lines[1..])
    requires Clean(lines, |vars|) == Clean(lines[1..], |vars|) + 1
    requires AcceptedRows(lines[..Clean(lines, |vars|)], |vars|) ==
             [Classify(lines[0], |vars|).fields] + AcceptedRows(lines[1..][..Clean(lines[1..], |vars|)], |vars|)
    ensures forall j :: 0 <= j < |vars| ==>
      LoadRows(vars, rows, lines).variables[j].values ==
      vars[j].values + Column(AcceptedRows(lines[..Clean(lines, |vars|)], |vars|), j)
  {
    var n := |vars|;
    var fs := Classify(lines[0], n).fields;
    var tl := lines[1..];
    var a' := AcceptedRows(tl[..Clean(tl, n)], n);
    var r := LoadRows(vars, rows, lines);
    forall j | 0 <= j < n
      ensures r.variables[j].values == vars[j].values + Column([fs] + a', j)
    {
      AcceptedColumn(vars, fs, a', j);
    }
  }

  /** Appending one accepted row and then the column of the later rows gives
      the column of all of them. */
  lemma AcceptedColumn(vars: seq<Variable>, fs: seq<string>, a: seq<seq<string>>, j: nat)
    requires |fs| == |vars| && j < |vars|
    requires forall i :: 0 <= i < |a| ==> |a[i]| == |vars|
    ensures AddRow(vars, fs)[j].values + Column(a, j) == vars[j].values + Column([fs] + a, j)
  {
    ColumnCons(fs, a, j);
  }

  /** What a successful or failed load leaves in its columns: each column
      holds exactly its field of every accepted data line before the first
      mismatch, and the counter is the number of those lines not skipped. */
  lemma LoadSpec(lines: seq<string>)
    requires lines != [] && LoadReadable(lines)
    ensures var r := Load(true, lines);
      var n := |Header(lines[0])|;
      var data := lines[1..];
      var k := Clean(data, n);
      var a := AcceptedRows(data[..k], n);
      && (r.status == Pass <==> k == |data|)
      && r.rows == Counted(data[..k], n)
      && forall j :: 0 <= j < n ==> r.variables[j].values == Column(a, j)
  {
    LoadRowsSpec(Header(lines[0]), 0, lines[1..]);
  }

  /** A row whose last field is empty is skipped whatever its width: it adds
      no values and is not counted. */
  lemma SkippedRow(vars: seq<Variable>, rows: nat, row: string, rest: seq<string>)
    requires Splittable(row) && Readable(rest, |vars|)
    requires row != [] && Fields(row)[|Fields(row)| - 1] == ""
    ensures Readable([row] + rest, |vars|)
    ensures LoadRows(vars, rows, [row] + rest) == LoadRows(vars, rows, rest)
  {
    var lines := [row] + rest;
    assert lines[0] == row && lines[1..] == rest;
    assert Classify(row, |vars|).Skipped?;
  }

  /** An empty line adds no values but is counted. */
  lemma BlankRow(vars: seq<Variable>, rows: nat, rest: seq<string>)
    requires Readable(rest, |vars|)
    ensures Readable([""] + rest, |vars|)
    ensures LoadRows(vars, rows, [""] + rest) == LoadRows(vars, rows + 1, rest)
  {
    var lines := [""] + rest;
    assert Splittable("");
    assert lines[0] == "" && lines[1..] == rest;
  }

  /** Every column of the list tracks its values with its range. */
  ghost predicate AllTrack(vars: seq<Variable>) {
    forall j :: 0 <= j < |vars| ==> RangeTracksValues(vars[j])
  }

  /** The loop of `load` keeps every column's range tracking its values. */
  lemma {:induction false} LoadRowsTracks(vars: seq<Variable>, rows: nat, lines: seq<string>)
    requires Readable(lines, |vars|) && AllTrack(vars)
    ensures AllTrack(LoadRows(vars, rows, lines).variables)
    decreases |lines|
  {
    if lines != [] {
      var n := |vars|;
      var kind := Classify(lines[0], n);
      LoadRowsStep(vars, rows, lines);
      if !kind.Mismatch? {
        var vars' := if kind.Accepted? then AddRow(vars, kind.fields) else vars;
        if kind.Accepted? {
          forall j | 0 <= j < n
            ensures RangeTracksValues(vars'[j])
          {
            AddValueTracks(vars[j], kind.fields[j]);
          }
        }
        LoadRowsTracks(vars', if kind.Skipped? then rows else rows + 1, lines[1..]);
      }
    }
  }

  /** After a load, successful or not, the upper bound of every column is its
      greatest present value and its lower bound its least present value
      (missing when the column has none). */
  lemma LoadTracks(isOpen: bool, lines: seq<string>)
    requires LoadReadable(lines)
    ensures AllTrack(Load(isOpen, lines).variables)
  {
    if isOpen && lines != [] {
      var h := Header(lines[0]);
      forall j | 0 <= j < |h|
        ensures RangeTracksValues(h[j])
      {
        NewVariableTracks(Fields(lines[0])[j]);
      }
      LoadRowsTracks(h, 0, lines[1..]);
    }
  }

  /** The header "a,b" has the two fields "a" and "b". */
  lemma TwoFieldHeader()
    ensures Splittable("a,b") && Fields("a,b") == ["a", "b"]
  {
    CellThenComma(Plain("a"), "b");
    CellAlone(Plain("b"));
    assert Render(Plain("a")) + "," + "b" == "a,b";
  }

  /** The row "x" has the one field "x". */
  lemma OneFieldRow()
    ensures Splittable("x") && Fields("x") == ["x"]
  {
    CellAlone(Plain("x"));
  }

  /** A line after the first mismatch is never read, so it need not be
      splittable: a file with header "a,b", the one-field row "x" and then a
      lone quote loads with the width error. */
  lemma MismatchStopsReading()
    ensures !AllSplittable(["a,b", "x", "\""])
    ensures LoadReadable(["a,b", "x", "\""])
    ensures Load(true, ["a,b", "x", "\""]).status == Fail(CountMismatch)
  {
    var lines := ["a,b", "x", "\""];
    LoneQuote();
    assert lines[2] == "\"";
    TwoFieldHeader();
    OneFieldRow();
    assert |Header(lines[0])| == 2;
    assert Classify(lines[1], 2).Mismatch?;
    assert lines[1..][0] == "x";
  }

  /** A row holding only a quote cannot be split: its one match is the lone quote. */
  lemma LoneQuote()
    ensures !Splittable("\"")
  {
    assert Matches("", true) == [];
    assert IndexOf("", '"') == 0;
    assert IndexOf("\"", ',') == 1;
    assert MatchLen("\"") == 1;
    assert "\""[1..] == "";
    assert "\""[..1] == "\"";
    assert Matches("\"", false)[0] == "\"";
  }
}

=== FILE: values.dfy ===
/** A single data point of a column: a piece of text, a number, or a missing
    entry, with the hand-written partial order, the constructor from raw text,
    the numeric coercion and the display form (src/models/variable.rs). */
module Values {
  import opened Wrappers

  /** The three answers of an ordering query, as Rust's `std::cmp::Ordering`. */
  datatype Ordering = Less | Equal | Greater {

    /** The answer of the same query with the operands swapped. */
    function Reverse(): Ordering {
      match this
      case Less => Greater
      case Equal => Equal
      case Greater => Less
    }
  }

  /** `Reverse` lifted to a query that may have no answer. */
  function ReverseOpt(o: Option<Ordering>): Option<Ordering> {
    match o
    case None => None
    case Some(x) => Some(x.Reverse())
  }

  /** A value is text, a number (an `f32` in the source, never NaN here) or missing. */
  datatype Value = Text(text: string) | Number(number: real) | Missing

  /* ---------------------------------------------------------------------- */
  /* Orderings of the payloads                                              */
  /* ---------------------------------------------------------------------- */

  /** Rust's `str` ordering: lexicographic, a proper prefix sorts first.
      Comparing UTF-8 bytes and comparing code points give the same answer,
      so characters are compared directly. */
  function LexCmp(a: string, b: string): (r: Ordering)
    ensures a == [] ==> (r == Equal <==> b == [])
    ensures a != [] && b != [] && a[0] != b[0] ==> (r == Less <==> a[0] < b[0])
  {
    if a == [] && b == [] then Equal
    else if a == [] then Less
    else if b == [] then Greater
    else if a[0] < b[0] then Less
    else if a[0] > b[0] then Greater
    else LexCmp(a[1..], b[1..])
  }

  /** A proper prefix sorts before the longer string. */
  lemma {:induction false} LexCmpPrefix(a: string, b: string)
    requires |a| < |b| && a == b[..|a|]
    ensures LexCmp(a, b) == Less && LexCmp(b, a) == Greater
    decreases |a|
  {
    if a != [] {
      assert a[0] == b[0];
      assert a[1..] == b[1..][..|a| - 1];
      LexCmpPrefix(a[1..], b[1..]);
    }
  }

  /** Independent description of "a sorts strictly before b": a is a proper
      prefix of b, or the first differing character of a is smaller. */
  ghost predicate LexBelow(a: string, b: string) {
    || (|a| < |b| && a == b[..|a|])
    || exists k :: 0 <= k < |a| && k < |b| && a[..k] == b[..k] && a[k] < b[k]
  }

  /** Ordering of two numbers; NaN is not modelled, so it is total. */
  function NumCmp(x: real, y: real): (r: Ordering)
    ensures r == Less <==> x < y
    ensures r == Greater <==> x > y
  {
    if x < y then Less else if x > y then Greater else Equal
  }

  /** Strings compare `Equal` exactly when they are the same string. */
  lemma {:induction false} LexCmpEqualIff(a: string, b: string)
    ensures LexCmp(a, b) == Equal <==> a == b
    decreases |a|
  {
    if a != [] && b != [] && a[0] == b[0] {
      LexCmpEqualIff(a[1..], b[1..]);
      if a[1..] == b[1..] {
        assert a == [a[0]] + a[1..];
        assert b == [b[0]] + b[1..];
      }
    }
  }

  /** Swapping the strings reverses the answer. */
  lemma {:induction false} LexCmpReverse(a: string, b: string)
    ensures LexCmp(b, a) == LexCmp(a, b).Reverse()
    decreases |a|
  {
    if a != [] && b != [] && a[0] == b[0] {
      LexCmpReverse(a[1..], b[1..]);
    }
  }

  /** `Less` between strings is transitive. */
  lemma {:induction false} LexCmpTransitive(a: string, b: string, c: string)
    requires LexCmp(a, b) == Less && LexCmp(b, c) == Less
    ensures LexCmp(a, c) == Less
    decreases |a|
  {
    if a != [] && b != [] && c != [] && a[0] == b[0] && b[0] == c[0] {
      LexCmpTransitive(a[1..], b[1..], c[1..]);
    }
  }

  /** `LexCmp` answers `Less` exactly when `LexBelow` holds. */
  lemma {:induction false} LexCmpLessIff(a: string, b: string)
    ensures LexCmp(a, b) == Less <==> LexBelow(a, b)
    decreases |a|
  {
    if a == [] {
      if b != [] {
        assert a == b[..|a|];
      }
    } else if b == [] {
      // Neither disjunct of LexBelow can hold when b is empty.
    } else if a[0] < b[0] {
      assert a[..0] == b[..0];
    } else if a[0] > b[0] {
      forall k | 0 < k <= |a| && k <= |b|
        ensures a[..k] != b[..k]
      {
        assert a[..k][0] != b[..k][0];
      }
    } else {
      LexCmpLessIff(a[1..], b[1..]);
      if LexBelow(a[1..], b[1..]) {
        if |a[1..]| < |b[1..]| && a[1..] == b[1..][..|a[1..]|] {
          assert a == [a[0]] + a[1..];
          assert b[..|a|] == [b[0]] + b[1..][..|a[1..]|];
        } else {
          var k :| 0 <= k < |a[1..]| && k < |b[1..]| && a[1..][..k] == b[1..][..k] && a[1..][k] < b[1..][k];
          assert a[..k+1] == [a[0]] + a[1..][..k];
          assert b[..k+1] == [b[0]] + b[1..][..k];
        }
      }
      if LexBelow(a, b) {
        if |a| < |b| && a == b[..|a|] {
          assert a[1..] == b[1..][..|a[1..]|];
        } else {
          var k :| 0 <= k < |a| && k < |b| && a[..k] == b[..k] && a[k] < b[k];
          assert k > 0;
          assert a[1..][..k-1] == a[..k][1..];
          assert b[1..][..k-1] == b[..k][1..];
          assert a[1..][k-1] < b[1..][k-1];
        }
      }
    }
  }

  /* ---------------------------------------------------------------------- */
  /* The partial order on values                                            */
  /* ---------------------------------------------------------------------- */

  /** `PartialOrd::partial_cmp` as evidently intended (src/models/variable.rs:43-64):
      text against text and number against number compare their payloads,
      text against number has no answer, and a missing value sits below every
      present value and equals only another missing value. */
  function PartialCmp(a: Value, b: Value): (r: Option<Ordering>)
    ensures r.None? <==> (a.Text? && b.Number?) || (a.Number? && b.Text?)
    ensures r == Some(Equal) <==> a == b
    ensures a.Missing? && !b.Missing? ==> r == Some(Less)
    ensures !a.Missing? && b.Missing? ==> r == Some(Greater)
    ensures a.Number? && b.Number? ==> r == Some(NumCmp(a.number, b.number))
  {
    match (a, b)
    case (Text(s1), Text(s2)) => LexCmpEqualIff(s1, s2); Some(LexCmp(s1, s2))
    case (Text(_), Number(_)) => None
    case (Number(_), Text(_)) => None
    case (Number(n1), Number(n2)) => Some(NumCmp(n1, n2))
    case (Missing, Missing) => Some(Equal)
    case (Missing, _) => Some(Less)
    case (_, Missing) => Some(Greater)
  }

  /** `partial_cmp` exactly as written: in the text and number arms the guard
      `*other == Value::None` is always true once `other` matched `None`, so a
      present value compared against a missing one answers `Equal`
      (src/models/variable.rs:49, 57) and the `Greater` arms are dead. */
  function PartialCmpAsWritten(a: Value, b: Value): (r: Option<Ordering>)
    ensures !a.Missing? && b.Missing? ==> r == Some(Equal)
    ensures !(b.Missing? && !a.Missing?) ==> r == PartialCmp(a, b)
  {
    match (a, b)
    case (Text(s1), Text(s2)) => Some(LexCmp(s1, s2))
    case (Text(_), Number(_)) => None
    case (Number(_), Text(_)) => None
    case (Number(n1), Number(n2)) => Some(NumCmp(n1, n2))
    case (Missing, Missing) => Some(Equal)
    case (Missing, _) => Some(Less)
    case (_, Missing) => Some(Equal)
  }

  /** The order as written is not antisymmetric: some pair answers `Equal`
      one way round and `Less` the other way, and `Equal` for unequal values. */
  lemma AsWrittenIsNotAntisymmetric()
    ensures exists a: Value, b: Value ::
      PartialCmpAsWritten(a, b) == Some(Equal) && a != b
      && PartialCmpAsWritten(b, a) == Some(Less)
  {
    var a, b := Text("a"), Missing;
    assert PartialCmpAsWritten(a, b) == Some(Equal) && a != b;
    assert PartialCmpAsWritten(b, a) == Some(Less);
  }

  /** Swapping the operands of the corrected order reverses its answer. */
  lemma PartialCmpReverse(a: Value, b: Value)
    ensures PartialCmp(b, a) == ReverseOpt(PartialCmp(a, b))
  {
    if a.Text? && b.Text? {
      LexCmpReverse(a.text, b.text);
    }
  }

  /** Values of the same kind are always comparable: exactly one of less,
      equal and greater holds. */
  lemma PartialCmpSameKind(a: Value, b: Value)
    requires (a.Text? && b.Text?) || (a.Number? && b.Number?) || (a.Missing? && b.Missing?)
    ensures PartialCmp(a, b).Some?
  {
  }

  /** Two texts compare as their strings do. */
  lemma TextsCompare(a: Value, b: Value)
    requires a.Text? && b.Text?
    ensures PartialCmp(a, b) == Some(LexCmp(a.text, b.text))
  {
  }

  /** `Less` is transitive under the corrected order. */
  lemma PartialCmpTransitive(a: Value, b: Value, c: Value)
    requires PartialCmp(a, b) == Some(Less) && PartialCmp(b, c) == Some(Less)
    ensures PartialCmp(a, c) == Some(Less)
  {
    if a.Text? && b.Text? && c.Text? {
      LexCmpTransitive(a.text, b.text, c.text);
    }
  }

  /** Rust's `a > b` on a `PartialOrd`: the query answers `Greater`. */
  predicate Gt(cmp: (Value, Value) -> Option<Ordering>, a: Value, b: Value) {
    cmp(a, b) == Some(Greater)
  }

  /** Rust's `a < b` on a `PartialOrd`: the query answers `Less`. */
  predicate Lt(cmp: (Value, Value) -> Option<Ordering>, a: Value, b: Value) {
    cmp(a, b) == Some(Less)
  }

  /* ---------------------------------------------------------------------- */
  /* Construction and numeric coercion                                      */
  /* ---------------------------------------------------------------------- */

  /** `Value::new`: the empty string is missing, anything else is kept as text. */
  function New(s: string): (r: Value)
    ensures r.Missing? <==> s == []
    ensures !r.Missing? ==> r == Text(s)
  {
    if s == [] then Missing else Text(s)
  }

  /** Characters that numeric coercion deletes. */
  predicate Dropped(c: char) {
    c == ' ' || c == '\t' || c == '%'
  }

  /** Characters that numeric coercion deletes or rewrites. */
  predicate Unclean(c: char) {
    Dropped(c) || c == ','
  }

  /** Number of characters of `s` that coercion deletes. */
  function DroppedCount(s: string): nat {
    if s == [] then 0 else (if Dropped(s[0]) then 1 else 0) + DroppedCount(s[1..])
  }

  /** The text handed to the number parser: spaces, tabs and percent signs
      removed, then every comma turned into a dot. */
  function Sanitize(s: string): (r: string)
    ensures forall i :: 0 <= i < |r| ==> !Unclean(r[i])
    ensures |r| == |s| - DroppedCount(s)
  {
    if s == [] then []
    else
      var head := if Dropped(s[0]) then [] else if s[0] == ',' then ['.'] else [s[0]];
      head + Sanitize(s[1..])
  }

  /** A single character: spaces, tabs and percent signs vanish, a comma
      becomes a dot, anything else is kept. */
  lemma SanitizeChar(c: char)
    ensures Sanitize([c]) == if Dropped(c) then [] else if c == ',' then ['.'] else [c]
  {
    assert [c][1..] == [];
  }

  /** Coercion works character by character, so it distributes over concatenation. */
  lemma {:induction false} SanitizeAppend(a: string, b: string)
    ensures Sanitize(a + b) == Sanitize(a) + Sanitize(b)
    decreases |a|
  {
    if a != [] {
      assert (a + b)[0] == a[0];
      assert (a + b)[1..] == a[1..] + b;
      SanitizeAppend(a[1..], b);
    } else {
      assert a + b == b;
    }
  }

  /** Text that holds none of the deleted or rewritten characters passes unchanged. */
  lemma {:induction false} SanitizeClean(s: string)
    requires forall i :: 0 <= i < |s| ==> !Unclean(s[i])
    ensures Sanitize(s) == s
    decreases |s|
  {
    if s != [] {
      SanitizeClean(s[1..]);
      assert s == [s[0]] + s[1..];
    }
  }

  /** Sanitizing twice is the same as sanitizing once. */
  lemma SanitizeIdempotent(s: string)
    ensures Sanitize(Sanitize(s)) == Sanitize(s)
  {
    SanitizeClean(Sanitize(s));
  }

  /** `Value::as_number` (src/models/variable.rs:77-84), with `str::parse::<f32>`
      as the parameter `parse`: text whose sanitized form parses becomes that
      number; text that does not parse stays the same text (it does not become
      missing); numbers and missing values are left alone. */
  function AsNumber(v: Value, parse: string -> Option<real>): (r: Value)
    ensures r.Missing? <==> v.Missing?
    ensures !v.Text? ==> r == v
    ensures r.Text? ==> r == v
    ensures r.Number? && v.Text? ==> parse(Sanitize(v.text)) == Some(r.number)
    ensures v.Text? && parse(Sanitize(v.text)).Some? ==> r.Number?
  {
    match v
    case Text(s) =>
      (match parse(Sanitize(s))
       case Some(n) => Number(n)
       case None => v)
    case _ => v
  }

  /** Coercing an already coerced value changes nothing. */
  lemma AsNumberIdempotent(v: Value, parse: string -> Option<real>)
    ensures AsNumber(AsNumber(v, parse), parse) == AsNumber(v, parse)
  {
  }

  /* ---------------------------------------------------------------------- */
  /* Display                                                                */
  /* ---------------------------------------------------------------------- */

  /** Placeholder shown for a missing value. */
  const MissingGlyph: string := "(missing)"

  /** Magnitude of a number. */
  function Abs(x: real): real {
    if x < 0.0 then -x else x
  }

  /** Number of decimals a number is shown with (src/models/variable.rs:29-34):
      three from 0.001 up to 0.1 in magnitude, two up to 1, one up to 100,
      and none for anything smaller or larger. */
  function Decimals(x: real): (d: nat)
    ensures d <= 3
    ensures d == 3 <==> 0.001 <= Abs(x) < 0.1
    ensures d == 2 <==> 0.1 <= Abs(x) < 1.0
    ensures d == 1 <==> 1.0 <= Abs(x) < 100.0
    ensures d == 0 <==> Abs(x) < 0.001 || 100.0 <= Abs(x)
  {
    var m := Abs(x);
    if 0.001 <= m < 0.1 then 3
    else if 0.1 <= m < 1.0 then 2
    else if 1.0 <= m < 100.0 then 1
    else 0
  }

  /** From 0.001 up, a larger magnitude is never shown with more decimals,
      and the sign does not matter. */
  lemma DecimalsMonotone(x: real, y: real)
    requires 0.001 <= Abs(x) <= Abs(y)
    ensures Decimals(y) <= Decimals(x)
    ensures Decimals(-x) == Decimals(x)
  {
  }

  /** `Display for Value` (src/models/variable.rs:22-39): missing values show
      the placeholder, text is wrapped in curly double quotes, and a number
      is written by `formatFixed` with the decimals `Decimals` picks for it
      (Rust's `{:.N}` formatting is the parameter `formatFixed`). */
  function Display(v: Value, formatFixed: (real, nat) -> string): (r: string)
    ensures v.Missing? ==> r == "(missing)"
    ensures v.Text? ==> |r| == |v.text| + 2 && r[0] == '“' && r[|r| - 1] == '”'
    ensures v.Text? ==> r[1..|r| - 1] == v.text
    ensures v.Number? ==> r == formatFixed(v.number, Decimals(v.number))
  {
    match v
    case Missing => MissingGlyph
    case Text(s) => "“" + s + "”"
    case Number(n) => formatFixed(n, Decimals(n))
  }

  /** Text and missing values are told apart by their display form. */
  lemma DisplayInjective(a: Value, b: Value, formatFixed: (real, nat) -> string)
    requires !a.Number? && !b.Number?
    requires Display(a, formatFixed) == Display(b, formatFixed)
    ensures a == b
  {
  }
}

=== FILE: variables.dfy ===
/** A named column of values with a running lower/upper range and a backup
    used to switch between the numeric and the text reading of the column
    (src/models/variable.rs, `Range` and `Variable`). */
module Variables {
  import opened Wrappers
  import opened Values

  /** The running bounds of a column; both start out missing (`Range::default`). */
  datatype Range = Range(lower: Value, upper: Value)

  /** A column: its name, its values in row order, the snapshot taken before
      numeric coercion, and its running range. */
  datatype Variable = Variable(name: string, values: seq<Value>, backup: seq<Value>, range: Range)

  /** `Variable::new` (src/models/variable.rs:128-136): a column with the
      given name, no values, no backup and both bounds missing. */
  function NewVariable(name: string): (x: Variable)
    ensures x.name == name && x.values == [] && x.backup == []
    ensures x.range.lower.Missing? && x.range.upper.Missing?
  {
    Variable(name, [], [], Range(Missing, Missing))
  }

  /* ---------------------------------------------------------------------- */
  /* Appending values                                                       */
  /* ---------------------------------------------------------------------- */

  /** The bound updates of `add_value` (src/models/variable.rs:140-145) under
      the ordering `cmp`: each bound either stays or becomes the new value; a
      missing bound always becomes it; a present lower bound gives way exactly
      to a value it is greater than, a present upper bound exactly to a value
      it is less than. */
  function UpdateRange(r0: Range, v: Value, cmp: (Value, Value) -> Option<Ordering>): (r: Range)
    ensures r.lower == v || r.lower == r0.lower
    ensures r.upper == v || r.upper == r0.upper
    ensures r0.lower.Missing? ==> r.lower == v
    ensures r0.upper.Missing? ==> r.upper == v
    ensures !r0.lower.Missing? && r.lower != r0.lower ==> cmp(r0.lower, v) == Some(Greater)
    ensures !r0.upper.Missing? && r.upper != r0.upper ==> cmp(r0.upper, v) == Some(Less)
    ensures !r0.lower.Missing? && cmp(r0.lower, v) == Some(Greater) ==> r.lower == v
    ensures !r0.upper.Missing? && cmp(r0.upper, v) == Some(Less) ==> r.upper == v
  {
    Range(
      if r0.lower == Missing || Gt(cmp, r0.lower, v) then v else r0.lower,
      if r0.upper == Missing || Lt(cmp, r0.upper, v) then v else r0.upper)
  }

  /** `add_value` under the ordering `cmp`: the value is appended and the
      range updated; name and backup are kept. */
  function AddValueWith(x: Variable, s: string, cmp: (Value, Value) -> Option<Ordering>): (r: Variable)
    ensures r.values == x.values + [New(s)]
    ensures r.name == x.name && r.backup == x.backup
    ensures r.range == UpdateRange(x.range, New(s), cmp)
  {
    x.(values := x.values + [New(s)], range := UpdateRange(x.range, New(s), cmp))
  }

  /** `Variable::add_value` (src/models/variable.rs:138-146) exactly as
      written, that is with the order `PartialCmpAsWritten`: the raw text is
      turned into a value and appended after every earlier value, which stay
      as they were, and a missing value leaves the range alone. */
  function AddValue(x: Variable, s: string): (r: Variable)
    ensures |r.values| == |x.values| + 1
    ensures r.values[..|x.values|] == x.values
    ensures r.values[|x.values|] == New(s)
    ensures r.name == x.name && r.backup == x.backup
    ensures s == [] ==> r.range == x.range
  {
    var r := AddValueWith(x, s, PartialCmpAsWritten);
    assert r.values[..|x.values|] == x.values;
    r
  }

  /** `add_value` applied to each string of `ss` in turn. */
  function AddValues(x: Variable, ss: seq<string>): Variable
    decreases |ss|
  {
    if ss == [] then x else AddValues(AddValue(x, ss[0]), ss[1..])
  }

  /** `add_value` as written is the corrected order with missing values kept
      out of the range: the faulty `partial_cmp` only ever answers wrongly
      against a missing value, and there the answer leaves the bound alone. */
  lemma AddValueIgnoresMissing(x: Variable, s: string)
    ensures AddValue(x, s).range ==
      if s == [] then x.range else UpdateRange(x.range, New(s), PartialCmp)
  {
    if s != [] {
      var v := New(s);
      assert PartialCmpAsWritten(x.range.lower, v) == PartialCmp(x.range.lower, v);
      assert PartialCmpAsWritten(x.range.upper, v) == PartialCmp(x.range.upper, v);
    }
  }

  /** With the corrected order alone, a missing value would reset the lower
      bound to missing; `add_value` as written keeps a present lower bound. */
  lemma CorrectedOrderResetsLower(x: Variable)
    ensures AddValueWith(x, "", PartialCmp).range.lower == Missing
    ensures !x.range.lower.Missing? ==> AddValue(x, "").range.lower == x.range.lower
  {
    assert New("") == Missing;
  }

  /** The upper bound does not depend on the faulty guard: the corrected
      order and the order as written move it in the same way for every
      string, and for a present value the whole range agrees. */
  lemma OrdersAgreeOnUpper(x: Variable, s: string)
    ensures AddValueWith(x, s, PartialCmp).range.upper == AddValue(x, s).range.upper
    ensures s != [] ==> AddValueWith(x, s, PartialCmp) == AddValue(x, s)
  {
  }

  /** No value of the column is a number: what `add_value` alone produces. */
  ghost predicate NoNumbers(vals: seq<Value>) {
    forall i :: 0 <= i < |vals| ==> !vals[i].Number?
  }

  /** `u` is the greatest present value of `vals`, or missing when every value is. */
  ghost predicate IsUpperOf(vals: seq<Value>, u: Value) {
    && (u.Missing? <==> forall i :: 0 <= i < |vals| ==> vals[i].Missing?)
    && (!u.Missing? ==> u in vals)
    && (forall i :: 0 <= i < |vals| && !vals[i].Missing? ==> PartialCmp(vals[i], u) != Some(Greater))
  }

  /** `l` is the least present value of `vals`, or missing when every value is. */
  ghost predicate IsLowerOf(vals: seq<Value>, l: Value) {
    && (l.Missing? <==> forall i :: 0 <= i < |vals| ==> vals[i].Missing?)
    && (!l.Missing? ==> l in vals)
    && (forall i :: 0 <= i < |vals| && !vals[i].Missing? ==> PartialCmp(vals[i], l) != Some(Less))
  }

  /** The new upper bound after appending a present or missing text value `v`
      to `vals` keeps being the greatest present value. */
  lemma UpperStep(vals: seq<Value>, u: Value, v: Value)
    requires NoNumbers(vals) && !v.Number? && IsUpperOf(vals, u)
    ensures IsUpperOf(vals + [v], UpdateRange(Range(u, u), v, PartialCmp).upper)
  {
    var u' := UpdateRange(Range(u, u), v, PartialCmp).upper;
    var vals' := vals + [v];
    if v.Text? && !u.Missing? {
      assert u.Text? by { assert u in vals; }
      assert vals'[|vals|] == v;
      if PartialCmp(u, v) == Some(Less) {
        assert u' == v;
        forall i | 0 <= i < |vals'| && !vals'[i].Missing?
          ensures PartialCmp(vals'[i], v) != Some(Greater)
        {
          if i < |vals| {
            var w := vals[i];
            assert vals'[i] == w;
            assert w.Text?;
            assert PartialCmp(w, u) != Some(Greater);
            TextsCompare(w, u);
            if PartialCmp(w, u) == Some(Equal) {
              assert w == u;
            } else {
              var o := LexCmp(w.text, u.text);
              assert o != Greater;
              assert o != Equal;
              assert o == Less;
              assert PartialCmp(w, u) == Some(Less);
              PartialCmpTransitive(w, u, v);
            }
          } else {
            assert vals'[i] == v;
          }
        }
      } else {
        assert u' == u;
        PartialCmpReverse(u, v);
        assert vals'[|vals|] == v;
      }
    } else if v.Text? {
      assert u' == v;
      assert vals'[|vals|] == v;
    } else {
      assert u' == u;
      assert vals'[|vals|] == v;
      assert forall i :: 0 <= i < |vals| ==> vals'[i] == vals[i];
    }
  }

  /** The new lower bound after appending a text value `v` to `vals` keeps
      being the least present value. */
  lemma LowerStep(vals: seq<Value>, l: Value, v: Value)
    requires NoNumbers(vals) && v.Text? && IsLowerOf(vals, l)
    ensures IsLowerOf(vals + [v], UpdateRange(Range(l, l), v, PartialCmp).lower)
  {
    var l' := UpdateRange(Range(l, l), v, PartialCmp).lower;
    var vals' := vals + [v];
    assert vals'[|vals|] == v;
    if !l.Missing? {
      assert l.Text? by { assert l in vals; }
      if PartialCmp(l, v) == Some(Greater) {
        assert l' == v;
        forall i | 0 <= i < |vals'| && !vals'[i].Missing?
          ensures PartialCmp(vals'[i], v) != Some(Less)
        {
          if i < |vals| {
            var w := vals[i];
            assert vals'[i] == w;
            assert w.Text?;
            PartialCmpReverse(w, l);
            PartialCmpReverse(l, v);
            if PartialCmp(w, l) == Some(Equal) {
              assert w == l;
            } else {
              assert PartialCmp(l, w) == Some(Less);
              PartialCmpTransitive(v, l, w);
              PartialCmpReverse(v, w);
            }
          }
        }
      } else {
        assert l' == l;
        PartialCmpReverse(l, v);
        assert forall i :: 0 <= i < |vals| ==> vals'[i] == vals[i];
      }
    } else {
      assert l' == v;
    }
  }

  /** One `add_value` keeps the upper bound the greatest present value. */
  lemma AddValueKeepsUpper(x: Variable, s: string)
    requires NoNumbers(x.values) && IsUpperOf(x.values, x.range.upper)
    ensures NoNumbers(AddValue(x, s).values)
    ensures IsUpperOf(AddValue(x, s).values, AddValue(x, s).range.upper)
  {
    assert AddValue(x, s).values == x.values + [New(s)];
    AddValueIgnoresMissing(x, s);
    UpperStep(x.values, x.range.upper, New(s));
  }

  /** After any sequence of `add_value` calls, the upper bound is the
      lexicographically greatest present value, or missing if none. */
  lemma {:induction false} AddValuesUpper(x: Variable, ss: seq<string>)
    requires NoNumbers(x.values) && IsUpperOf(x.values, x.range.upper)
    ensures NoNumbers(AddValues(x, ss).values)
    ensures IsUpperOf(AddValues(x, ss).values, AddValues(x, ss).range.upper)
    decreases |ss|
  {
    if ss != [] {
      AddValueKeepsUpper(x, ss[0]);
      AddValuesUpper(AddValue(x, ss[0]), ss[1..]);
    }
  }

  /** One `add_value` keeps the lower bound the least present value: a
      missing value is appended without touching it. */
  lemma AddValueKeepsLower(x: Variable, s: string)
    requires NoNumbers(x.values) && IsLowerOf(x.values, x.range.lower)
    ensures NoNumbers(AddValue(x, s).values)
    ensures IsLowerOf(AddValue(x, s).values, AddValue(x, s).range.lower)
  {
    var v := New(s);
    var vals' := x.values + [v];
    assert AddValue(x, s).values == vals';
    AddValueIgnoresMissing(x, s);
    if v.Text? {
      LowerStep(x.values, x.range.lower, v);
    } else {
      assert vals'[|x.values|] == v;
      assert forall i :: 0 <= i < |x.values| ==> vals'[i] == x.values[i];
    }
  }

  /** After any sequence of `add_value` calls, the lower bound is the
      lexicographically least present value, or missing if none. */
  lemma {:induction false} AddValuesLower(x: Variable, ss: seq<string>)
    requires NoNumbers(x.values) && IsLowerOf(x.values, x.range.lower)
    ensures NoNumbers(AddValues(x, ss).values)
    ensures IsLowerOf(AddValues(x, ss).values, AddValues(x, ss).range.lower)
    decreases |ss|
  {
    if ss != [] {
      AddValueKeepsLower(x, ss[0]);
      AddValuesLower(AddValue(x, ss[0]), ss[1..]);
    }
  }

  /** The running range of a column built by `add_value` alone: no numbers,
      the upper bound the greatest present value and the lower bound the
      least one. */
  ghost predicate RangeTracksValues(x: Variable) {
    && NoNumbers(x.values)
    && IsUpperOf(x.values, x.range.upper)
    && IsLowerOf(x.values, x.range.lower)
  }

  /** A new column tracks its values: it has none, and both bounds are missing. */
  lemma NewVariableTracks(name: string)
    ensures RangeTracksValues(NewVariable(name))
  {
  }

  /** `add_value` keeps a column's range tracking its values. */
  lemma AddValueTracks(x: Variable, s: string)
    requires RangeTracksValues(x)
    ensures RangeTracksValues(AddValue(x, s))
  {
    AddValueKeepsUpper(x, s);
    AddValueKeepsLower(x, s);
  }

  /* ---------------------------------------------------------------------- */
  /* Switching between the numeric and the text reading                     */
  /* ---------------------------------------------------------------------- */

  /** `Variable::as_numbers` (src/models/variable.rs:157-166): the values are
      snapshotted into the backup only when the backup is empty, then every
      value and both bounds are coerced with `AsNumber`. */
  function AsNumbers(x: Variable, parse: string -> Option<real>): (r: Variable)
    ensures r.name == x.name && |r.values| == |x.values|
    ensures forall i :: 0 <= i < |x.values| ==> r.values[i] == AsNumber(x.values[i], parse)
    ensures forall i :: 0 <= i < |x.values| ==> (r.values[i].Missing? <==> x.values[i].Missing?)
    ensures x.backup != [] ==> r.backup == x.backup
    ensures x.backup == [] ==> r.backup == x.values
    ensures r.range == Range(AsNumber(x.range.lower, parse), AsNumber(x.range.upper, parse))
  {
    x.(values := seq(|x.values|, i requires 0 <= i < |x.values| => AsNumber(x.values[i], parse)),
       backup := if x.backup == [] then x.values else x.backup,
       range := Range(AsNumber(x.range.lower, parse), AsNumber(x.range.upper, parse)))
  }

  /** `Variable::as_strings` (src/models/variable.rs:168-173): the values are
      replaced by the backup; the backup is kept and the range is not restored. */
  function AsStrings(x: Variable): (r: Variable)
    ensures r.values == x.backup && r.backup == x.backup
    ensures r.name == x.name && r.range == x.range
  {
    x.(values := x.backup)
  }

  /** `as_numbers` applied `n` times in a row. */
  function AsNumbersTimes(x: Variable, parse: string -> Option<real>, n: nat): Variable {
    if n == 0 then x else AsNumbers(AsNumbersTimes(x, parse, n - 1), parse)
  }

  /** `as_numbers` is idempotent: a second call changes neither the values,
      nor the backup, nor the range. */
  lemma AsNumbersIdempotent(x: Variable, parse: string -> Option<real>)
    ensures AsNumbers(AsNumbers(x, parse), parse) == AsNumbers(x, parse)
  {
    var y := AsNumbers(x, parse);
    var z := AsNumbers(y, parse);
    forall i | 0 <= i < |y.values|
      ensures z.values[i] == y.values[i]
    {
      AsNumberIdempotent(x.values[i], parse);
    }
    assert z.values == y.values;
    AsNumberIdempotent(x.range.lower, parse);
    AsNumberIdempotent(x.range.upper, parse);
  }

  /** Once a column has been coerced at least once, its backup holds the values
      from before the first coercion, however often it is coerced again. */
  lemma {:induction false} AsNumbersTimesBackup(x: Variable, parse: string -> Option<real>, n: nat)
    requires n >= 1
    requires x.backup == [] || x.backup == x.values
    ensures AsNumbersTimes(x, parse, n).backup == x.values
    ensures |AsNumbersTimes(x, parse, n).values| == |x.values|
  {
    if n > 1 {
      AsNumbersTimesBackup(x, parse, n - 1);
    }
  }

  /** The round trip: any number of `as_numbers` calls followed by
      `as_strings` gives back exactly the values present before the first
      coercion, provided no stale backup was left from earlier. */
  lemma AsNumbersThenAsStrings(x: Variable, parse: string -> Option<real>, n: nat)
    requires n >= 1
    requires x.backup == [] || x.backup == x.values
    ensures AsStrings(AsNumbersTimes(x, parse, n)).values == x.values
  {
    AsNumbersTimesBackup(x, parse, n);
  }
}

=== FILE: wrappers.dfy ===
/** Failure-carrying datatypes shared by the other modules. */
module Wrappers {

  /** An optional value; `None` stands for Rust's `Option::None`. */
  datatype Option<+T> = None | Some(value: T)

  /** A value or an error message, as Rust's `Result<T, E>`. */
  datatype Result<+T, +E> = Ok(value: T) | Err(error: E)

  /** The outcome of an operation that returns `Result<(), E>`. */
  datatype Outcome<+E> = Pass | Fail(error: E)
}
